=== FILE: README.md ===
# Shopify search-query builder, modelled in Dafny

This project models the TypeScript library `shopify-search-query`. The library builds
strings in the Shopify API search syntax, such as `first_name:Bob AND orders_count:>16`,
out of small combinators:

- the term constructors `eq`, `gt`, `lt`, `gte`, `lte`, `prefix` and `exists`;
- the negation modifier `not`;
- the connectives `and` and `or`;
- the printer `buildSearchQuery`.

Each source file is one Dafny module:

| module | file | what it holds |
|---|---|---|
| `Types` | `types.dfy` | Terms, queries and the three symbol tables (comparators, connectives, modifiers). A query element is a single operand (`Single`) or a parenthesised group of operands (`Group`). An operand is a term (`T`) or a nested query (`Q`). |
| `Text` | `text.dfy` | `Join`, the array `join` the printer uses. |
| `Dates` | `dates.dfy` | The anchored date pattern that makes a value print in quotes, written as predicates. It is proved equal to a list of five fixed-width shapes. |
| `Escape` | `escape.dfy` | Escaping of names and of values, and the decoders that are their partners. |
| `Comparators`, `Modifiers`, `Connectives` | `comparators.dfy`, `modifiers.dfy`, `connectives.dfy` | The user-facing constructors. |
| `Builder` | `builder.dfy` | `formatTerm` and `buildSearchQuery` with its inner `buildTerms`. |
| `Rendering` | `rendering.dfy` | What each constructor, `not` and each connective prints. |
| `Examples` | `examples.dfy` | Every expectation of the library's test file, proved about the model. |

Behaviours of the library that the model keeps, and that the lemmas make visible:

- A value is wrapped in double quotes when it is a date or contains an ASCII space.
  - Other whitespace does not trigger quoting.
  - Nothing inside the quotes is escaped, not even `"` or `\`. A value without a double quote is always recovered from its printed form (`EscapeValueRoundTrip`).
  - `EscapeValueCollision` exhibits two different values that print alike.
- Names are only escaped. Restrictions on their first character are documented but not enforced.
- The date pattern does not range-check months, days or hours.
- On the default field (empty name), the comparator is dropped. So `gt('', '5')` prints `5`.
- A value may itself begin with comparator text. For a non-empty field `f`, `eq(f, '>5')` prints exactly like `gt(f, '5')` (`ComparatorInValue`).
- `prefix` and `exists` are equality on a value ending in `*`. A starred value is never a date, so it is quoted only when it holds a space.
- A group is printed with the connective of the query that holds it. A nested query is printed without parentheses, so `and(or(a, b), c)` prints `a OR b AND c`.
- The constructors `and` and `or` demand at least one operand. A query record built directly may still have none; it prints as the empty string, and an empty group prints as `()` (`EmptyRendering`).

## Model

| member | source | states |
|---|---|---|
| Types.ComparatorOf | src/comparators.ts:8-14 | Reading a comparator back from text only succeeds on that comparator's own symbol. |
| Types.ComparatorSymbolRoundTrip | src/comparators.ts:8-14 | Each comparator's symbol reads back as that comparator. No two comparators share a symbol. Every symbol starts with `:`. |
| Types.ConnectiveOf | src/connectives.ts:8-11 | Reading a connective back from text only succeeds on its own keyword. |
| Types.ConnectiveSymbolRoundTrip | src/connectives.ts:8-11 | The keywords are `AND` and `OR`. They are distinct, and each reads back as its connective. |
| Text.Join | src/builder.ts:87 | The array `join`: parts in order, the separator between each two neighbours, none at the ends. Its laws are `JoinEnds` and `JoinAppend`. |
| Text.JoinEnds | src/builder.ts:87 | Joining nothing gives the empty string. A non-empty join starts with the first part and ends with the last. |
| Text.JoinAppend | src/builder.ts:77-87 | Joining two non-empty lists back to back puts exactly one separator between their joins. |
| Dates.IsDate | src/builder.ts:3-9 | `DATE_REGEX.test`: the whole value is a day, optionally followed by a time. Every match is 10, 20, 22, 23 or 24 characters long. |
| Dates.IsDateIffShape | src/builder.ts:3-9 | A value matches the date pattern exactly when it has one of five shapes: `YYYY-MM-DD`, or that followed by `Thh:mm:ss`, then either no fraction or a `.` followed by 1 to 3 digits, and `Z`. |
| Dates.DateHasNoSpace | src/builder.ts:35-38 | A date never holds a space, so the two reasons for quoting never coincide. |
| Dates.StarredNeverDate | src/builder.ts:9 | A value ending in `*` never matches the date pattern. |
| Escape.IsSpecial | src/builder.ts:11-18 | The character class of `ESCAPE_REGEX`: `:`, `\`, `(` and `)`. Its partner is `EscapeNameUnique`. |
| Escape.EscapeName | src/builder.ts:18-26 | Escaping adds one character per special character (`:`, `\`, `(`, `)`). The result reads as escape pairs and plain characters, and unescaping it gives back the name. |
| Escape.EscapeNameUnique | src/builder.ts:24-26 | A string is the escaped form of a name if and only if it is well escaped and unescapes to that name. |
| Escape.EscapeNameAppend | src/builder.ts:24-26 | The replacement works character by character, so escaping distributes over concatenation. |
| Escape.EscapeNamePlain | src/builder.ts:18-26 | A name with no special character is printed unchanged. |
| Escape.SplitNameEscaped | src/builder.ts:50-52 | Scanning an escaped name followed by a comparator stops at the comparator's `:` and returns the original name and the rest. |
| Escape.EscapeValue | src/builder.ts:33-43 | A date, or a value with a space, is printed as the unaltered value between two double quotes. Any other value is escaped like a name. |
| Escape.EscapeValueRoundTrip | src/builder.ts:33-43 | A value without a double quote is recovered from its printed form. |
| Escape.EscapeValueCollision | src/builder.ts:38-42 | The date `2020-10-21` and the string `"2020-10-21"` print alike, because quotes are never escaped. |
| Escape.QuotedDateUnescaped | src/builder.ts:42 | The day `2020-10-21` wrapped in double quotes is not a date and holds no special character, so it prints unchanged. |
| Escape.DateQuoted | src/builder.ts:35-39 | The bare date `2020-10-21` prints in double quotes. |
| Modifiers.Not | src/modifiers.ts:15-17 | Negation sets the modifier to `NOT` and keeps field, value and comparator. |
| Modifiers.NotIdempotent | src/modifiers.ts:15-17 | Negating twice equals negating once: the modifier is overwritten, not toggled. |
| Modifiers.OnlyModifier | src/modifiers.ts:4-6 | `NOT` is the only modifier, and it prints as `NOT`. |
| Connectives.And | src/connectives.ts:19-26 | `and` keeps its operands as given, in order, and uses connective `AND`. |
| Connectives.Or | src/connectives.ts:34-41 | `or` keeps its operands as given, in order, and uses connective `OR`. |
| Builder.FormatTerm | src/builder.ts:50-56 | A negated term prints as `NOT `, then the term as it prints without the modifier. On a named field without modifier, reading the name back up to the first unescaped `:` gives the field exactly, followed by the comparator symbol and the printed value. |
| Builder.NamedNameRecovered | src/builder.ts:51-52 | The field is read back from its escaped name followed by any comparator symbol and value. |
| Builder.BuildSearchQuery | src/builder.ts:68-71 | A term prints through `formatTerm`; a query prints its elements with its own connective (src/builder.ts:90-91). Its laws are `NestedQueryRendering`, `BuildTermsAppend` and `EmptyRendering`. |
| Builder.BuildTerms | src/builder.ts:73-88 | A list of exactly one element prints as that element, with no connective text. |
| Builder.ElemStrings | src/builder.ts:77-86 | The `map` of buildTerms: entry `i` is element `i` printed with the query's connective, and there are as many entries as elements. |
| Builder.RenderElem | src/builder.ts:78-86 | A group always prints between `(` and `)`. |
| Builder.NodeStrings | src/builder.ts:79-80 | Entry `i` is group member `i` printed on its own, and there are as many entries as members. |
| Builder.DefaultFieldIgnoresComparator | src/builder.ts:51-53 | An unmodified term on the empty field prints as its printed value alone, whatever its comparator. |
| Builder.PlainTerm | src/builder.ts:50-53 | An unmodified named term whose name and value have nothing to escape or quote prints as name, symbol and value verbatim. |
| Builder.ElemStringsAppend | src/builder.ts:77-86 | Elements are printed one by one, in order. |
| Builder.BuildTermsAppend | src/builder.ts:73-88 | Two non-empty element lists print as the first, the keyword between spaces, then the second. |
| Builder.NodeStringsSingles | src/builder.ts:79-85 | A group member prints exactly as the same operand would as a single element. |
| Builder.GroupRendering | src/builder.ts:79-80 | A group prints as its members joined by the enclosing connective, inside parentheses. |
| Builder.NestedQueryRendering | src/builder.ts:85 | A nested query prints as it does on its own, with its own connective and no parentheses. |
| Builder.EmptyRendering | src/builder.ts:73-91 | An empty element list prints as the empty string. An empty group prints as `()`. |
| Comparators.Eq | src/comparators.ts:23-28 | `eq(value)` is `eq('', value)`: equality on the empty (default) field. |
| Comparators.EqField | src/comparators.ts:24-31 | `eq(field, value)`: an unmodified `EQ` term. How it prints is `Rendering.EqFieldRendering`. |
| Comparators.Gt | src/comparators.ts:40-42 | An unmodified `GT` term. How it prints is `Rendering.RangeRendering`. |
| Comparators.Lt | src/comparators.ts:50-52 | An unmodified `LT` term. How it prints is `Rendering.RangeRendering`. |
| Comparators.Gte | src/comparators.ts:60-62 | An unmodified `GTE` term. How it prints is `Rendering.RangeRendering`. |
| Comparators.Lte | src/comparators.ts:70-72 | An unmodified `LTE` term. How it prints is `Rendering.RangeRendering`. |
| Comparators.Prefix | src/comparators.ts:81-86 | `prefix(value)` is `eq(value + '*')`. |
| Comparators.PrefixField | src/comparators.ts:82-93 | `prefix(field, value)` is `eq(field, value + '*')`. |
| Comparators.Exists | src/comparators.ts:102-104 | `exists(field)` is `eq(field, '*')`. |
| Rendering.ConstructorsUnmodified | src/comparators.ts:23-104 | No constructor sets a modifier. |
| Rendering.ConstructorsCover | src/comparators.ts:25-72 | Each unmodified term is what the constructor of its comparator builds from its field and value. |
| Rendering.EqRendering | src/comparators.ts:27-28 | `eq(value)` prints the printed value alone. |
| Rendering.EqFieldRendering | src/comparators.ts:30-31 | `eq(field, value)` prints the escaped name, `:`, then the printed value. With an empty name it prints the value alone. |
| Rendering.RangeRendering | src/comparators.ts:40-72 | For a non-empty name, `gt`, `lt`, `gte` and `lte` print `:>`, `:<`, `:>=` and `:<=` between the escaped name and the printed value. |
| Rendering.NamedTermRendering | src/builder.ts:50-53 | Any unmodified named term prints as escaped name, comparator symbol, printed value. |
| Rendering.StarredValue | src/comparators.ts:83-93 | A starred value is quoted exactly when the original holds a space, with the star inside the quotes. Otherwise it is escaped and ends in a bare `*`. |
| Rendering.StarredQuoting | src/builder.ts:35-38 | A starred value needs quotes exactly when the original value holds a space. |
| Rendering.StarredEscaping | src/builder.ts:42 | The `*` is not escaped. |
| Rendering.PrefixRendering | src/comparators.ts:85-86 | `prefix(value)` prints the starred value alone. |
| Rendering.PrefixFieldRendering | src/comparators.ts:89-93 | For a non-empty name, `prefix(field, value)` prints the escaped name, `:`, then the starred value. |
| Rendering.ExistsRendering | src/comparators.ts:102-104 | `exists(field)` prints the escaped name followed by `:*`, or `*` alone for an empty name. |
| Rendering.ComparatorInValue | src/comparators.ts:25-42 | For a non-empty name, equality on `>` plus a value prints exactly like `gt` on that value, when the value is neither a date nor spaced. |
| Rendering.GreaterSignPrinted | src/builder.ts:33-43 | A value starting with `>` is never a date. When it holds no space, it is escaped with the `>` kept. |
| Rendering.NotRendering | src/modifiers.ts:15-17 | `not` on an unmodified term prints `NOT ` followed by the term as printed before. |
| Rendering.AndRendering | src/connectives.ts:19-26 | `and` with one operand prints that operand alone. With more, it prints the first operand, ` AND `, then the rest printed as their own `and`. |
| Rendering.OrRendering | src/connectives.ts:34-41 | `or` with one operand prints that operand alone. With more, it prints the first operand, ` OR `, then the rest printed as their own `or`. |
| Examples.FieldSearchShape | test/builder.test.ts:9 | `eq(field, value)` on a plain name and value prints `field:value`. |
| Examples.FieldSearch | test/builder.test.ts:9 | `eq('first_name', 'Bob')` prints `first_name:Bob`. |
| Examples.FieldSearchAndShape | test/builder.test.ts:10-12 | `and` of two plain named equalities prints both, joined by ` AND `. |
| Examples.FieldSearchAnd | test/builder.test.ts:10-12 | `and(eq('first_name', 'Bob'), eq('age', '27'))` prints `first_name:Bob AND age:27`. |
| Examples.PhraseShape | test/builder.test.ts:13-15 | A value with a space prints between double quotes after `field:`. |
| Examples.PhraseValue | test/builder.test.ts:13-15 | `eq('title', 'Caramel Apple')` prints `title:"Caramel Apple"`. |
| Examples.DefaultSearch | test/builder.test.ts:19 | `eq('Bob')` prints `Bob`. |
| Examples.DefaultSearchAndShape | test/builder.test.ts:20-22 | `and` of two plain default-field values prints them joined by ` AND `. |
| Examples.DefaultSearchAnd | test/builder.test.ts:20-22 | `and(eq('Bob'), eq('Norman'))` prints `Bob AND Norman`. |
| Examples.MixedSearchAndShape | test/builder.test.ts:23-25 | A named and a default-field equality under `and` print as `field:value AND value`. |
| Examples.MixedSearchAnd | test/builder.test.ts:23-25 | `and(eq('title', 'Bob'), eq('Norman'))` prints `title:Bob AND Norman`. |
| Examples.DateRangeShape | test/builder.test.ts:29-31 | `gt` on a date value prints the date in quotes after `field:>`. |
| Examples.DateRange | test/builder.test.ts:29-31 | `gt('created_at', '2020-10-21')` prints `created_at:>"2020-10-21"`. |
| Examples.TimestampIsDate | test/builder.test.ts:32-34 | `2020-10-21T23:39:20Z` matches the date pattern. |
| Examples.TimestampRange | test/builder.test.ts:32-34 | `gt('created_at', '2020-10-21T23:39:20Z')` prints the timestamp in quotes after `created_at:>`. |
| Examples.RangeAndShape | test/builder.test.ts:35-39 | `and(gt, lte)` on a plain name and values prints `f:>lo AND f:<=hi`. |
| Examples.RangeAnd | test/builder.test.ts:35-39 | `and(gt('orders_count', '16'), lte('orders_count', '30'))` prints `orders_count:>16 AND orders_count:<=30`. |
| Examples.RangeGroupShape | test/builder.test.ts:44 | An `and` holding only a two-member range group prints as that group, parentheses kept. |
| Examples.PhraseGroupShape | test/builder.test.ts:43 | A group of one phrase term prints as that term in parentheses. |
| Examples.GroupedRangesShape | test/builder.test.ts:40-49 | `or([phrase], and([gt, lte]))` prints both groups in parentheses, joined by ` OR `. |
| Examples.GroupedRanges | test/builder.test.ts:40-49 | The grouped-ranges test prints `(title:"Caramel Apple") OR (inventory_total:>500 AND inventory_total:<=1000)`. |
| Examples.NegatedDefault | test/builder.test.ts:53 | `not(eq('Bob'))` prints `NOT Bob`. |
| Examples.NegatedFieldShape | test/builder.test.ts:54-56 | `not` on a plain named equality prints `NOT field:value`. |
| Examples.NegatedField | test/builder.test.ts:54-56 | `not(eq('first_name', 'Bob'))` prints `NOT first_name:Bob`. |
| Examples.NestedWithoutParenthesesShape | test/builder.test.ts:60-62 | `and(or(a, b), c)` prints `a OR b AND c`, without parentheses. |
| Examples.NestedWithoutParentheses | test/builder.test.ts:60-62 | `and(or(eq('bob'), eq('norman')), eq('Shopify'))` prints `bob OR norman AND Shopify`. |
| Examples.LoneGroupShape | test/builder.test.ts:69-71 | `and([a, b])` prints `(a AND b)`. |
| Examples.LoneGroup | test/builder.test.ts:69-71 | `and([eq('Bob'), eq('Norman')])` prints `(Bob AND Norman)`. |
| Examples.GroupInNestedQueryShape | test/builder.test.ts:72-74 | `or(and([a, b]), c)` prints `(a AND b) OR c`. |
| Examples.GroupInNestedQuery | test/builder.test.ts:72-74 | `or(and([eq('Bob'), eq('Norman')]), eq('Alice'))` prints `(Bob AND Norman) OR Alice`. |
| Examples.GroupWithPhraseShape | test/builder.test.ts:75-79 | `and(eq(f, v), or([phrase, w]))` prints `f:v AND ("phrase" OR w)`. |
| Examples.GroupWithPhrase | test/builder.test.ts:75-79 | The group-with-phrase test prints `state:disabled AND ("sale shopper" OR VIP)`. |
| Examples.PhraseQuery | test/builder.test.ts:83-85 | `eq('first_name', 'Bob Norman')` prints `first_name:"Bob Norman"`. |
| Examples.PrefixDefault | test/builder.test.ts:89 | `prefix('norm')` prints `norm*`. |
| Examples.PrefixNamedShape | test/builder.test.ts:90 | `prefix(field, value)` on a plain name and value prints `field:value*`. |
| Examples.PrefixNamed | test/builder.test.ts:90 | `prefix('title', 'head')` prints `title:head*`. |
| Examples.ExistsFieldShape | test/builder.test.ts:94 | `exists(field)` on a plain name prints `field:*`. |
| Examples.ExistsField | test/builder.test.ts:94 | `exists('published_at')` prints `published_at:*`. |
| Examples.ColonTail | test/builder.test.ts:98-100 | A `:` in front of a string with nothing to escape gets one backslash. |
| Examples.SpecialCharacterShape | test/builder.test.ts:98-100 | A value made of two plain parts around a `:`, when the value is neither a date nor spaced, prints the `:` as `\:`. |
| Examples.SpecialCharacter | test/builder.test.ts:98-100 | `eq('first_name', 'Bob:Norman')` prints `first_name:Bob\:Norman`. |

## Left out

- The build configuration (`tsup.config.ts`) has no behaviour to model.
- The two regular expressions are not modelled as a regex engine. The date pattern is written as predicates over fixed positions, and the escaping pattern as a per-character recursion. JavaScript's `\d` matches only ASCII digits, as in the model.
- Strings are sequences of characters. UTF-16 code units and surrogate pairs are not distinguished.
- `eq` and `prefix` are overloaded by arity in the source. The model has two functions for each (`Eq`/`EqField`, `Prefix`/`PrefixField`), and the "value is undefined" test becomes the choice of function.
- The runtime checks `'field' in query` and `Array.isArray(term)` tell terms, queries and groups apart. The model uses the constructors `T`, `Q`, `Single` and `Group` instead. An object that is both a term and a query cannot be expressed.
- Connectives.And and Connectives.Or: the non-empty tuple type of the source becomes `requires |ops| >= 1`.
- The field-name rule in the comment at src/builder.ts:22 (no leading `-`, `'` or `"`) is not enforced by the source, and so not by the model.
- The test runner itself is not modelled. The expectations in test/builder.test.ts are stated as lemmas instead. The repeated range assertions at test/builder.test.ts:101-106 are the same as those at lines 29-34, proved by `DateRange` and `TimestampRange`.

=== FILE: builder.dfy ===
/**
 The printer: turns a term or a query into search-syntax text.

 A term prints as `name<comparator>value`, or as the value alone when the
 field is empty; a modifier adds `NOT ` in front. A query prints its elements
 in order, joined by ` AND ` or ` OR `. A nested query prints without
 parentheses; a group prints its members joined by the connective of the
 query that holds the group, inside parentheses.
 */
module Builder {
  import opened Types
  import opened Text
  import opened Escape

  /**
   One term. The comparator is not printed for the default field, and a
   modifier adds its keyword and a space in front. On a named field without
   modifier, reading the name back up to the first unescaped `:` gives the
   field exactly, followed by the comparator and the printed value.
   */
  function FormatTerm(t: Term): (r: string)
    ensures t.modifier == Some(NOT) ==> r == "NOT " + FormatTerm(t.(modifier := None))
    ensures t.modifier == None && t.field != "" ==>
      SplitName(r) == Some((t.field, t.comparator.Symbol() + EscapeValue(t.value)))
    decreases if t.modifier == None then 0 else 1
  {
    NamedNameRecovered(t.field, t.comparator, EscapeValue(t.value));
    var body :=
      if t.field != "" then EscapeName(t.field) + t.comparator.Symbol() + EscapeValue(t.value)
      else EscapeValue(t.value);
    match t.modifier
    case None => body
    case Some(m) => m.Symbol() + " " + body
  }

  /** The name is read back from an escaped name followed by a comparator symbol and any text. */
  lemma NamedNameRecovered(f: string, c: Comparator, value: string)
    ensures SplitName(EscapeName(f) + c.Symbol() + value) == Some((f, c.Symbol() + value))
  {
    ComparatorSymbolRoundTrip(c);
    var rest := c.Symbol() + value;
    assert EscapeName(f) + c.Symbol() + value == EscapeName(f) + rest;
    SplitNameEscaped(f, rest);
  }

  /** The text put between two elements of a query with connective `c`. */
  function Separator(c: Connective): string {
    " " + c.Symbol() + " "
  }

  /** The printed form of a term or a query. */
  function BuildSearchQuery(root: Node): string
    decreases root, 1
  {
    match root
    case T(t) => FormatTerm(t)
    case Q(q) => BuildTerms(q.terms, q.connective)
  }

  /** The elements of a query, printed and joined by the connective. */
  function BuildTerms(es: seq<Elem>, c: Connective): (r: string)
    ensures |es| == 1 ==> r == RenderElem(es[0], c)
    decreases es, 1
  {
    Join(ElemStrings(es, c), Separator(c))
  }

  /** Each element printed on its own, in order. */
  function ElemStrings(es: seq<Elem>, c: Connective): (r: seq<string>)
    ensures |r| == |es| && forall i :: 0 <= i < |es| ==> r[i] == RenderElem(es[i], c)
    decreases es, 0
  {
    if es == [] then [] else [RenderElem(es[0], c)] + ElemStrings(es[1..], c)
  }

  /** One element; a group is printed with the connective `c` of the query holding it. */
  function RenderElem(e: Elem, c: Connective): (r: string)
    ensures e.Group? ==> |r| >= 2 && r[0] == '(' && r[|r| - 1] == ')'
    decreases e, 1
  {
    match e
    case Single(n) => BuildSearchQuery(n)
    case Group(ns) => "(" + Join(NodeStrings(ns), Separator(c)) + ")"
  }

  /** Each group member printed on its own, in order. */
  function NodeStrings(ns: seq<Node>): (r: seq<string>)
    ensures |r| == |ns| && forall i :: 0 <= i < |ns| ==> r[i] == BuildSearchQuery(ns[i])
    decreases ns, 0
  {
    if ns == [] then [] else [BuildSearchQuery(ns[0])] + NodeStrings(ns[1..])
  }

  /** The members of a group, each as a single element. */
  function Singles(ns: seq<Node>): seq<Elem>
  {
    seq(|ns|, i requires 0 <= i < |ns| => Single(ns[i]))
  }

  /** On the default field only the printed value appears; the comparator is ignored. */
  lemma DefaultFieldIgnoresComparator(t: Term, c: Comparator)
    requires t.field == "" && t.modifier == None
    ensures FormatTerm(t) == EscapeValue(t.value)
    ensures FormatTerm(t.(comparator := c)) == FormatTerm(t)
  {
  }

  /**
   A term whose field and value hold no special character, and whose value
   is neither a date nor holds a space, prints as field, symbol and value verbatim.
   */
  lemma PlainTerm(t: Term)
    requires t.field != "" && t.modifier == None
    requires NoSpecial(t.field) && NoSpecial(t.value) && !NeedsQuotes(t.value)
    ensures BuildSearchQuery(T(t)) == t.field + t.comparator.Symbol() + t.value
  {
    EscapeNamePlain(t.field);
    EscapeNamePlain(t.value);
  }

  /** Printing each element of a concatenation is printing each list and concatenating. */
  lemma ElemStringsAppend(a: seq<Elem>, b: seq<Elem>, c: Connective)
    ensures ElemStrings(a + b, c) == ElemStrings(a, c) + ElemStrings(b, c)
  {
    var whole, left, right := ElemStrings(a + b, c), ElemStrings(a, c), ElemStrings(b, c);
    forall i | 0 <= i < |a + b|
      ensures whole[i] == (left + right)[i]
    {
      if i < |a| {
        assert (a + b)[i] == a[i];
        assert (left + right)[i] == left[i];
      } else {
        assert (a + b)[i] == b[i - |a|];
        assert (left + right)[i] == right[i - |a|];
      }
    }
    assert whole == left + right;
  }

  /**
   Elements print in order: two non-empty element lists print as the first,
   the connective between spaces, then the second.
   */
  lemma BuildTermsAppend(a: seq<Elem>, b: seq<Elem>, c: Connective)
    requires |a| >= 1 && |b| >= 1
    ensures BuildTerms(a + b, c) == BuildTerms(a, c) + " " + c.Symbol() + " " + BuildTerms(b, c)
  {
    ElemStringsAppend(a, b, c);
    JoinAppend(ElemStrings(a, c), ElemStrings(b, c), Separator(c));
  }

  /** Group members print exactly as the same operands would as single elements. */
  lemma NodeStringsSingles(ns: seq<Node>, c: Connective)
    ensures NodeStrings(ns) == ElemStrings(Singles(ns), c)
  {
    var members, elems := NodeStrings(ns), ElemStrings(Singles(ns), c);
    forall i | 0 <= i < |ns|
      ensures members[i] == elems[i]
    {
      assert Singles(ns)[i] == Single(ns[i]);
    }
    assert members == elems;
  }


  /**
   A group prints as its members, printed like the elements of a query with
   the enclosing connective, inside one pair of parentheses.
   */
  lemma GroupRendering(ns: seq<Node>, c: Connective)
    ensures RenderElem(Group(ns), c) == "(" + BuildTerms(Singles(ns), c) + ")"
  {
    NodeStringsSingles(ns, c);
  }

  /** A nested query prints as on its own, with its own connective and no parentheses. */
  lemma NestedQueryRendering(q: Query, c: Connective)
    ensures RenderElem(Single(Q(q)), c) == BuildSearchQuery(Q(q))
    ensures BuildSearchQuery(Q(q)) == BuildTerms(q.terms, q.connective)
  {
  }

  /** Nothing stops an empty element list or group: they print as nothing and as `()`. */
  lemma EmptyRendering(c: Connective)
    ensures BuildTerms([], c) == ""
    ensures RenderElem(Group([]), c) == "()"
  {
  }
}

=== FILE: comparators.dfy ===
/**
 Term constructors, one per comparator family. The source overloads `eq`
 and `prefix` by arity; here the default-field form and the named-field form
 are two functions. None of them looks at the content of field or value.
 */
module Comparators {
  import opened Types

  /** Equality on the default field, which is equality on the empty field name. */
  function Eq(value: string): (r: Term)
    ensures r == EqField("", value)
  {
    Term("", value, EQ, None)
  }

  /** Equality on a named field. */
  function EqField(field: string, value: string): Term {
    Term(field, value, EQ, None)
  }

  function Gt(field: string, value: string): Term {
    Term(field, value, GT, None)
  }

  function Lt(field: string, value: string): Term {
    Term(field, value, LT, None)
  }

  function Gte(field: string, value: string): Term {
    Term(field, value, GTE, None)
  }

  function Lte(field: string, value: string): Term {
    Term(field, value, LTE, None)
  }

  /** "Starts with" on the default field: equality on the raw value with a `*` appended. */
  function Prefix(value: string): (r: Term)
    ensures r == Eq(value + "*")
  {
    Term("", value + "*", EQ, None)
  }

  /** "Starts with" on a named field: equality on the value with a `*` appended. */
  function PrefixField(field: string, value: string): (r: Term)
    ensures r == EqField(field, value + "*")
  {
    Term(field, value + "*", EQ, None)
  }

  /** The field is present: equality on the lone value `*`. */
  function Exists(field: string): (r: Term)
    ensures r == EqField(field, "*")
  {
    Term(field, "*", EQ, None)
  }
}

=== FILE: connectives.dfy ===
/**
 The connectives `and` and `or`: each wraps one or more operands, in the
 order given, into a query. Groups stay groups and nested queries are kept
 as they are; nothing is flattened or reordered.
 */
module Connectives {
  import opened Types

  function And(ops: seq<Elem>): (q: Query)
    requires |ops| >= 1
    ensures q.connective == AND && q.terms == ops
  {
    Query(ops, AND)
  }

  function Or(ops: seq<Elem>): (q: Query)
    requires |ops| >= 1
    ensures q.connective == OR && q.terms == ops
  {
    Query(ops, OR)
  }
}

=== FILE: dates.dfy ===
/**
 The date pattern that makes a value print in double quotes:
 `YYYY-MM-DD`, optionally followed by `Thh:mm:ss`, an optional fraction of
 one to three digits after a `.`, and a closing `Z`. The pattern is anchored
 at both ends. Digits are the ASCII digits only, and the fields are not
 range-checked (`9999-99-99` matches).
 */
module Dates {

  predicate IsDigit(c: char) {
    '0' <= c <= '9'
  }

  predicate AllDigits(s: string) {
    forall i :: 0 <= i < |s| ==> IsDigit(s[i])
  }

  /** The whole value matches the date pattern; a match is 10, 20, 22, 23 or 24 characters long. */
  predicate IsDate(s: string)
    ensures IsDate(s) ==> |s| == 10 || |s| == 20 || |s| == 22 || |s| == 23 || |s| == 24
  {
    && |s| >= 10
    && IsDay(s[..10])
    && (|s| == 10 || IsTimeSuffix(s[10..]))
  }

  /** `YYYY-MM-DD` */
  predicate IsDay(d: string) {
    && |d| == 10
    && AllDigits(d[0..4]) && d[4] == '-'
    && AllDigits(d[5..7]) && d[7] == '-'
    && AllDigits(d[8..10])
  }

  /** `Thh:mm:ss`, an optional fraction, then `Z`. */
  predicate IsTimeSuffix(t: string) {
    && |t| >= 10
    && IsClock(t[..9])
    && IsFraction(t[9..|t| - 1])
    && t[|t| - 1] == 'Z'
  }

  /** `Thh:mm:ss` */
  predicate IsClock(c: string) {
    && |c| == 9
    && c[0] == 'T'
    && AllDigits(c[1..3]) && c[3] == ':'
    && AllDigits(c[4..6]) && c[6] == ':'
    && AllDigits(c[7..9])
  }

  /** Either nothing, or `.` followed by one to three digits. */
  predicate IsFraction(f: string) {
    f == [] || (f[0] == '.' && 2 <= |f| <= 4 && AllDigits(f[1..]))
  }

  /** One position of a fixed-width date shape: any digit, or one literal character. */
  datatype Slot = Digit | Lit(c: char)

  predicate SlotMatches(c: char, p: Slot) {
    match p
    case Digit => IsDigit(c)
    case Lit(l) => c == l
  }

  /** `s` has exactly the shape `p`, position by position. */
  predicate HasShape(s: string, p: seq<Slot>) {
    |s| == |p| && forall i :: 0 <= i < |s| ==> SlotMatches(s[i], p[i])
  }

  /** `n` digit positions. */
  function Digits(n: nat): seq<Slot> {
    seq(n, _ => Digit)
  }

  /** `YYYY-MM-DD` */
  const DayShape: seq<Slot> := Digits(4) + [Lit('-')] + Digits(2) + [Lit('-')] + Digits(2)
  /** `Thh:mm:ss` */
  const ClockShape: seq<Slot> := [Lit('T')] + Digits(2) + [Lit(':')] + Digits(2) + [Lit(':')] + Digits(2)

  /** `n` fractional digits after a `.`; nothing at all when `n` is 0. */
  function FractionShape(n: nat): seq<Slot> {
    if n == 0 then [] else [Lit('.')] + Digits(n)
  }

  /** A time of day whose seconds carry `n` fractional digits, closed by `Z`. */
  function TimeShape(n: nat): seq<Slot> {
    ClockShape + FractionShape(n) + [Lit('Z')]
  }

  /** The five shapes the date pattern stands for. */
  const DateShapes: seq<seq<Slot>> := [
    DayShape,
    DayShape + TimeShape(0),
    DayShape + TimeShape(1),
    DayShape + TimeShape(2),
    DayShape + TimeShape(3)
  ]

  /** Matching a concatenated shape is matching its two parts on the two matching pieces. */
  lemma ShapeSplit(s: string, p: seq<Slot>, q: seq<Slot>)
    ensures HasShape(s, p + q) <==> |s| >= |p| && HasShape(s[..|p|], p) && HasShape(s[|p|..], q)
  {
    if |s| >= |p| && HasShape(s[..|p|], p) && HasShape(s[|p|..], q) {
      forall i | 0 <= i < |s|
        ensures SlotMatches(s[i], (p + q)[i])
      {
        if i < |p| {
          assert s[..|p|][i] == s[i];
        } else {
          assert s[|p|..][i - |p|] == s[i];
        }
      }
    }
    if HasShape(s, p + q) {
      forall i | 0 <= i < |p|
        ensures SlotMatches(s[..|p|][i], p[i])
      {
        assert (p + q)[i] == p[i];
      }
      forall i | 0 <= i < |q|
        ensures SlotMatches(s[|p|..][i], q[i])
      {
        assert (p + q)[|p| + i] == q[i];
      }
    }
  }

  lemma DigitsShape(x: string, n: nat)
    ensures HasShape(x, Digits(n)) <==> |x| == n && AllDigits(x)
  {
  }

  lemma LitShape(x: string, c: char)
    ensures HasShape(x, [Lit(c)]) <==> x == [c]
  {
    if HasShape(x, [Lit(c)]) {
      assert SlotMatches(x[0], Lit(c));
    }
  }

  lemma DayIffShape(d: string)
    ensures IsDay(d) <==> HasShape(d, DayShape)
  {
    if |d| == 10 {
      ShapeSplit(d, Digits(4) + [Lit('-')] + Digits(2) + [Lit('-')], Digits(2));
      ShapeSplit(d[..8], Digits(4) + [Lit('-')] + Digits(2), [Lit('-')]);
      ShapeSplit(d[..7], Digits(4) + [Lit('-')], Digits(2));
      ShapeSplit(d[..5], Digits(4), [Lit('-')]);
      assert d[..8][..7] == d[..7] && d[..8][7..] == d[7..8];
      assert d[..7][..5] == d[..5] && d[..7][5..] == d[5..7];
      assert d[..5][..4] == d[0..4] && d[..5][4..] == d[4..5];
      assert d[8..] == d[8..10];
      DigitsShape(d[0..4], 4);
      DigitsShape(d[5..7], 2);
      DigitsShape(d[8..10], 2);
      LitShape(d[4..5], '-');
      LitShape(d[7..8], '-');
    }
  }

  lemma ClockIffShape(c: string)
    ensures IsClock(c) <==> HasShape(c, ClockShape)
  {
    if |c| == 9 {
      ShapeSplit(c, [Lit('T')] + Digits(2) + [Lit(':')] + Digits(2) + [Lit(':')], Digits(2));
      ShapeSplit(c[..7], [Lit('T')] + Digits(2) + [Lit(':')] + Digits(2), [Lit(':')]);
      ShapeSplit(c[..6], [Lit('T')] + Digits(2) + [Lit(':')], Digits(2));
      ShapeSplit(c[..4], [Lit('T')] + Digits(2), [Lit(':')]);
      ShapeSplit(c[..3], [Lit('T')], Digits(2));
      assert c[..7][..6] == c[..6] && c[..7][6..] == c[6..7];
      assert c[..6][..4] == c[..4] && c[..6][4..] == c[4..6];
      assert c[..4][..3] == c[..3] && c[..4][3..] == c[3..4];
      assert c[..3][..1] == c[0..1] && c[..3][1..] == c[1..3];
      assert c[7..] == c[7..9];
      DigitsShape(c[1..3], 2);
      DigitsShape(c[4..6], 2);
      DigitsShape(c[7..9], 2);
      LitShape(c[0..1], 'T');
      LitShape(c[3..4], ':');
      LitShape(c[6..7], ':');
    }
  }

  /** How many fractional digits a fraction carries. */
  function FractionWidth(f: string): nat {
    if f == [] then 0 else |f| - 1
  }

  lemma FractionIffShape(f: string)
    ensures IsFraction(f) <==> FractionWidth(f) <= 3 && HasShape(f, FractionShape(FractionWidth(f)))
  {
    if f != [] {
      ShapeSplit(f, [Lit('.')], Digits(|f| - 1));
      LitShape(f[..1], '.');
      DigitsShape(f[1..], |f| - 1);
    }
  }

  lemma TimeIffShape(t: string)
    ensures IsTimeSuffix(t) <==> exists n :: 0 <= n <= 3 && HasShape(t, TimeShape(n))
  {
    if IsTimeSuffix(t) {
      var f := t[9..|t| - 1];
      var n := FractionWidth(f);
      FractionIffShape(f);
      ClockIffShape(t[..9]);
      TimePieces(t, n);
      assert HasShape(t, TimeShape(n));
    }
    if n :| 0 <= n <= 3 && HasShape(t, TimeShape(n)) {
      TimePieces(t, n);
      var f := t[9..|t| - 1];
      assert |f| == |FractionShape(n)|;
      assert FractionWidth(f) == n;
      FractionIffShape(f);
      ClockIffShape(t[..9]);
    }
  }

  /** Splits a time-of-day shape into clock, fraction and the closing `Z`. */
  lemma TimePieces(t: string, n: nat)
    ensures HasShape(t, TimeShape(n)) <==>
      && |t| == 10 + |FractionShape(n)|
      && HasShape(t[..9], ClockShape)
      && HasShape(t[9..|t| - 1], FractionShape(n))
      && t[|t| - 1] == 'Z'
  {
    if |t| == 10 + |FractionShape(n)| {
      ShapeSplit(t, ClockShape + FractionShape(n), [Lit('Z')]);
      ShapeSplit(t[..|t| - 1], ClockShape, FractionShape(n));
      assert t[..|t| - 1][..9] == t[..9];
      assert t[..|t| - 1][9..] == t[9..|t| - 1];
      LitShape(t[|t| - 1..], 'Z');
    }
  }

  /** The date predicate accepts exactly the strings of one of the five listed shapes. */
  lemma IsDateIffShape(s: string)
    ensures IsDate(s) <==> exists k :: 0 <= k < |DateShapes| && HasShape(s, DateShapes[k])
  {
    if IsDate(s) {
      DateHasShape(s);
    }
    if k :| 0 <= k < |DateShapes| && HasShape(s, DateShapes[k]) {
      ShapeIsDate(s, k);
    }
  }

  /** A date has one of the five shapes: the bare day, or the day and a time with `n` fractional digits. */
  lemma DateHasShape(s: string)
    requires IsDate(s)
    ensures exists k :: 0 <= k < |DateShapes| && HasShape(s, DateShapes[k])
  {
    DayIffShape(s[..10]);
    if |s| == 10 {
      assert s[..10] == s;
      assert HasShape(s, DateShapes[0]);
    } else {
      TimeIffShape(s[10..]);
      var n :| 0 <= n <= 3 && HasShape(s[10..], TimeShape(n));
      DatePieces(s, n);
      assert DateShapes[n + 1] == DayShape + TimeShape(n);
      assert HasShape(s, DateShapes[n + 1]);
    }
  }

  /** Each of the five shapes only holds dates. */
  lemma ShapeIsDate(s: string, k: int)
    requires 0 <= k < |DateShapes| && HasShape(s, DateShapes[k])
    ensures IsDate(s)
  {
    if k == 0 {
      assert s[..10] == s;
      DayIffShape(s);
    } else {
      var n := k - 1;
      assert DateShapes[n + 1] == DayShape + TimeShape(n);
      DatePieces(s, n);
      DayIffShape(s[..10]);
      TimeIffShape(s[10..]);
    }
  }

  /** A timestamp shape splits into the day shape on the first ten characters and a time shape on the rest. */
  lemma DatePieces(s: string, n: nat)
    ensures HasShape(s, DayShape + TimeShape(n)) <==>
      |s| >= 10 && HasShape(s[..10], DayShape) && HasShape(s[10..], TimeShape(n))
  {
    assert |DayShape| == 10;
    ShapeSplit(s, DayShape, TimeShape(n));
  }

  /** A date never contains a space, so the two quoting triggers never overlap. */
  lemma DateHasNoSpace(s: string)
    requires IsDate(s)
    ensures ' ' !in s
  {
    forall i | 0 <= i < |s|
      ensures s[i] != ' '
    {
      if i < 10 {
        assert s[..10][i] == s[i];
        DayHasNoSpace(s[..10], i);
      } else {
        assert s[10..][i - 10] == s[i];
        TimeHasNoSpace(s[10..], i - 10);
      }
    }
  }

  /** Every position of a day is a digit or `-`. */
  lemma DayHasNoSpace(d: string, i: int)
    requires IsDay(d) && 0 <= i < |d|
    ensures d[i] != ' '
  {
    if i < 4 {
      assert d[0..4][i] == d[i];
    } else if 4 < i < 7 {
      assert d[5..7][i - 5] == d[i];
    } else if 7 < i {
      assert d[8..10][i - 8] == d[i];
    }
  }

  /** Every position of a time suffix is a digit, `T`, `:`, `.` or `Z`. */
  lemma TimeHasNoSpace(t: string, i: int)
    requires IsTimeSuffix(t) && 0 <= i < |t|
    ensures t[i] != ' '
  {
    var c := t[..9];
    var f := t[9..|t| - 1];
    if i < 9 {
      assert c[i] == t[i];
      if 0 < i < 3 {
        assert c[1..3][i - 1] == t[i];
      } else if 3 < i < 6 {
        assert c[4..6][i - 4] == t[i];
      } else if 6 < i {
        assert c[7..9][i - 7] == t[i];
      }
    } else if i < |t| - 1 {
      assert f[i - 9] == t[i];
      if i > 9 {
        assert f[1..][i - 10] == t[i];
      }
    }
  }

  /** A date ends in a digit or `Z`, so a value with a `*` appended is never a date. */
  lemma StarredNeverDate(s: string)
    ensures !IsDate(s + "*")
  {
    var t := s + "*";
    assert t[|t| - 1] == '*';
    if |t| == 10 {
      assert t[..10][8..10][1] == t[9];
    } else if |t| > 10 {
      var u := t[10..];
      assert u[|u| - 1] == '*';
    }
  }
}

=== FILE: escape.dfy ===
/**
 Escaping of field names and values.

 A name has a backslash put in front of every `:`, `\`, `(` and `)`. A value
 that is a date or holds a space is wrapped in double quotes instead, with
 nothing escaped inside the quotes; any other value is escaped like a name.
 */
module Escape {
  import opened Types
  import opened Dates

  /** The characters the escaping pattern matches. */
  predicate IsSpecial(c: char) {
    c == ':' || c == '\\' || c == '(' || c == ')'
  }

  /** How many special characters `s` holds. */
  function CountSpecial(s: string): nat {
    if s == [] then 0
    else (if IsSpecial(s[0]) then 1 else 0) + CountSpecial(s[1..])
  }

  /** Every special character of `s` with one backslash put in front of it. */
  function EscapeName(s: string): (r: string)
    ensures |r| == |s| + CountSpecial(s)
    ensures WellEscaped(r)
    ensures Unescape(r) == s
  {
    if s == [] then []
    else if IsSpecial(s[0]) then ['\\', s[0]] + EscapeName(s[1..])
    else [s[0]] + EscapeName(s[1..])
  }

  /**
   `r` reads as a run of tokens, each a plain (non-special) character or a
   backslash followed by a special character.
   */
  predicate WellEscaped(r: string) {
    if r == [] then true
    else if IsSpecial(r[0]) then |r| >= 2 && r[0] == '\\' && IsSpecial(r[1]) && WellEscaped(r[2..])
    else WellEscaped(r[1..])
  }

  /** Drops the backslash of every `\x` pair, keeping `x`; a trailing lone backslash is kept. */
  function Unescape(r: string): string {
    if r == [] then []
    else if r[0] == '\\' && |r| >= 2 then [r[1]] + Unescape(r[2..])
    else [r[0]] + Unescape(r[1..])
  }

  /** The escaped name is the only well-escaped string that unescapes to the name. */
  lemma {:induction false} EscapeNameUnique(s: string, r: string)
    ensures WellEscaped(r) && Unescape(r) == s <==> r == EscapeName(s)
    decreases |r|
  {
    if WellEscaped(r) && Unescape(r) == s && r != [] {
      if IsSpecial(r[0]) {
        assert s[0] == r[1] && s[1..] == Unescape(r[2..]);
        EscapeNameUnique(s[1..], r[2..]);
      } else {
        assert s[0] == r[0] && s[1..] == Unescape(r[1..]);
        EscapeNameUnique(s[1..], r[1..]);
      }
    }
  }

  /** Escaping works character by character, so it distributes over concatenation. */
  lemma {:induction false} EscapeNameAppend(a: string, b: string)
    ensures EscapeName(a + b) == EscapeName(a) + EscapeName(b)
    decreases |a|
  {
    if a == [] {
      assert a + b == b;
    } else {
      assert (a + b)[0] == a[0];
      assert (a + b)[1..] == a[1..] + b;
      EscapeNameAppend(a[1..], b);
    }
  }

  /** `s` holds none of the special characters. */
  predicate NoSpecial(s: string) {
    ':' !in s && '\\' !in s && '(' !in s && ')' !in s
  }

  /** A name without special characters is printed unchanged. */
  lemma {:induction false} EscapeNamePlain(s: string)
    requires NoSpecial(s)
    ensures EscapeName(s) == s
    decreases |s|
  {
    if s != [] {
      assert s[0] in s;
      assert forall c :: c in s[1..] ==> c in s;
      EscapeNamePlain(s[1..]);
    }
  }

  /**
   Reads a name from the front of a printed term: scans escape pairs and plain
   characters up to the first unescaped `:`, and returns the unescaped name
   together with the rest, which starts at that `:`. None when there is no
   unescaped `:`.
   */
  function SplitName(r: string): Option<(string, string)> {
    if r == [] then None
    else if r[0] == ':' then Some(([], r))
    else
      var width := if r[0] == '\\' && |r| >= 2 then 2 else 1;
      match SplitName(r[width..])
      case None => None
      case Some(split) => Some(([r[width - 1]] + split.0, split.1))
  }

  /** The name is read back exactly from its escaped form followed by a comparator. */
  lemma {:induction false} SplitNameEscaped(name: string, rest: string)
    requires |rest| >= 1 && rest[0] == ':'
    ensures SplitName(EscapeName(name) + rest) == Some((name, rest))
    decreases |name|
  {
    if name != [] {
      var r := EscapeName(name) + rest;
      SplitNameEscaped(name[1..], rest);
      if IsSpecial(name[0]) {
        assert r[0] == '\\' && r[1] == name[0];
        assert r[2..] == EscapeName(name[1..]) + rest;
      } else {
        assert r[0] == name[0];
        assert r[1..] == EscapeName(name[1..]) + rest;
      }
      assert [name[0]] + name[1..] == name;
    } else {
      assert EscapeName(name) + rest == rest;
    }
  }

  /** A value triggers quoting when it is a date or holds an ASCII space (tabs do not count). */
  predicate NeedsQuotes(v: string) {
    IsDate(v) || ' ' in v
  }

  /** The printed form of a value. */
  function EscapeValue(v: string): (r: string)
    ensures NeedsQuotes(v) ==> |r| == |v| + 2 && r[0] == '"' && r[|r| - 1] == '"' && r[1..|r| - 1] == v
    ensures !NeedsQuotes(v) ==> r == EscapeName(v)
  {
    if NeedsQuotes(v) then "\"" + v + "\"" else EscapeName(v)
  }

  /**
   Reads a printed value back: strips surrounding double quotes, otherwise
   drops the escaping backslashes.
   */
  function DecodeValue(r: string): string {
    if |r| >= 2 && r[0] == '"' && r[|r| - 1] == '"' then r[1..|r| - 1] else Unescape(r)
  }

  /** A value without double quotes is recovered from its printed form. */
  lemma EscapeValueRoundTrip(v: string)
    requires '"' !in v
    ensures DecodeValue(EscapeValue(v)) == v
  {
    if !NeedsQuotes(v) && v != [] {
      var r := EscapeName(v);
      assert r[0] == v[0] || r[0] == '\\';
    }
  }

  /**
   Without that condition the printed form is ambiguous: a quoted date and the
   same date already holding quotes print alike, because quotes are never escaped.
   */
  lemma EscapeValueCollision()
    ensures EscapeValue("2020-10-21") == EscapeValue("\"2020-10-21\"")
  {
    QuotedDateUnescaped();
    DateQuoted();
  }

  /** A date wrapped in quotes is no longer a date and holds no special character, so it prints as it is. */
  lemma QuotedDateUnescaped()
    ensures EscapeValue("\"2020-10-21\"") == "\"2020-10-21\""
  {
    var quoted := "\"2020-10-21\"";
    assert !IsDate(quoted) by {
      assert quoted[..10][0] == '"';
      assert !IsDigit(quoted[..10][0..4][0]);
    }
    assert ' ' !in quoted;
    EscapeNamePlain(quoted);
  }

  /** A bare date is printed inside double quotes. */
  lemma DateQuoted()
    ensures EscapeValue("2020-10-21") == "\"2020-10-21\""
  {
    var date := "2020-10-21";
    assert IsDate(date) by {
      assert date[..10] == date;
    }
    assert "\"" + date + "\"" == "\"2020-10-21\"";
  }
}

=== FILE: examples.dfy ===
/**
 The expected outputs of the library's own test suite, stated as lemmas
 about the model.

 Each expectation comes in two parts. A shape lemma states, for any field
 names and values of the right kind, how the expression of the test case prints, in
 terms of those strings. The expectation itself fixes the strings of the
 test through its precondition and only has to check that they are of that
 kind and that the pieces spell the expected text.
 */
module Examples {
  import opened Types
  import opened Dates
  import opened Escape
  import opened Comparators
  import opened Modifiers
  import opened Connectives
  import opened Builder
  import opened Rendering

  /** Too short to be a date, no special character, no space: printed unchanged as name or value. */
  predicate Plain(s: string) {
    |s| < 10 && NoSpecial(s) && ' ' !in s
  }

  /** A field name that prints unchanged. */
  predicate PlainName(f: string) {
    f != "" && NoSpecial(f)
  }

  lemma Verbatim(s: string)
    requires Plain(s)
    ensures !NeedsQuotes(s) && EscapeName(s) == s && EscapeValue(s) == s
  {
    EscapeNamePlain(s);
  }

  /** A plain field name and a plain value print as name, symbol, value. */
  lemma PlainPair(t: Term)
    requires PlainName(t.field) && t.modifier == None && Plain(t.value)
    ensures BuildSearchQuery(T(t)) == t.field + t.comparator.Symbol() + t.value
  {
    Verbatim(t.value);
    PlainTerm(t);
  }

  /** The text between two elements joined by `and` and by `or`. */
  lemma SeparatorText()
    ensures Separator(AND) == " AND " && Separator(OR) == " OR "
  {
  }

  /** Two elements print as the first, the keyword between spaces, the second. */
  lemma TwoElements(a: Elem, b: Elem, c: Connective)
    ensures BuildTerms([a, b], c) == RenderElem(a, c) + Separator(c) + RenderElem(b, c)
  {
    assert [a, b] == [a] + [b];
    BuildTermsAppend([a], [b], c);
  }

  /** A group of two members prints as both, joined by the enclosing keyword, in parentheses. */
  lemma TwoMemberGroup(a: Node, b: Node, c: Connective)
    ensures RenderElem(Group([a, b]), c) == "(" + (BuildSearchQuery(a) + Separator(c) + BuildSearchQuery(b)) + ")"
  {
    GroupRendering([a, b], c);
    assert Singles([a, b]) == [Single(a), Single(b)];
    TwoElements(Single(a), Single(b), c);
  }

  // ---- field search ----

  lemma FieldSearchShape(f: string, v: string)
    requires PlainName(f) && Plain(v)
    ensures BuildSearchQuery(T(EqField(f, v))) == f + ":" + v
  {
    PlainPair(EqField(f, v));
  }

  lemma FieldSearchText(f: string, v: string)
    requires f == "first_name" && v == "Bob"
    ensures f + ":" + v == "first_name:Bob"
  {
  }

  /** `eq('first_name', 'Bob')` prints `first_name:Bob`. */
  lemma FieldSearch(f: string, v: string)
    requires f == "first_name" && v == "Bob"
    ensures BuildSearchQuery(T(EqField(f, v))) == "first_name:Bob"
  {
    FieldSearchText(f, v);
    FieldSearchShape(f, v);
  }

  lemma FieldSearchAndShape(f1: string, v1: string, f2: string, v2: string)
    requires PlainName(f1) && Plain(v1) && PlainName(f2) && Plain(v2)
    ensures BuildSearchQuery(Q(And([Single(T(EqField(f1, v1))), Single(T(EqField(f2, v2)))])))
      == f1 + ":" + v1 + " AND " + (f2 + ":" + v2)
  {
    FieldSearchShape(f1, v1);
    FieldSearchShape(f2, v2);
    SeparatorText();
    TwoElements(Single(T(EqField(f1, v1))), Single(T(EqField(f2, v2))), AND);
  }

  lemma FieldSearchAndText(f1: string, v1: string, f2: string, v2: string)
    requires f1 == "first_name" && v1 == "Bob" && f2 == "age" && v2 == "27"
    ensures f1 + ":" + v1 + " AND " + (f2 + ":" + v2) == "first_name:Bob AND age:27"
  {
  }

  /** `and(eq('first_name', 'Bob'), eq('age', '27'))` prints `first_name:Bob AND age:27`. */
  lemma FieldSearchAnd(f1: string, v1: string, f2: string, v2: string)
    requires f1 == "first_name" && v1 == "Bob" && f2 == "age" && v2 == "27"
    ensures BuildSearchQuery(Q(And([Single(T(EqField(f1, v1))), Single(T(EqField(f2, v2)))])))
      == "first_name:Bob AND age:27"
  {
    FieldSearchAndText(f1, v1, f2, v2);
    FieldSearchAndShape(f1, v1, f2, v2);
  }

  /** A value holding a space prints inside double quotes after the plain name. */
  lemma PhraseShape(f: string, v: string)
    requires PlainName(f) && ' ' in v
    ensures BuildSearchQuery(T(EqField(f, v))) == f + ":" + ("\"" + v + "\"")
  {
    EscapeNamePlain(f);
  }

  lemma PhraseValueText(f: string, v: string)
    requires f == "title" && v == "Caramel Apple"
    ensures f + ":" + ("\"" + v + "\"") == "title:\"Caramel Apple\""
  {
  }

  /** `eq('title', 'Caramel Apple')` prints `title:"Caramel Apple"`. */
  lemma PhraseValue(f: string, v: string)
    requires f == "title" && v == "Caramel Apple"
    ensures BuildSearchQuery(T(EqField(f, v))) == "title:\"Caramel Apple\""
  {
    PhraseValueText(f, v);
    assert v[7] == ' ';
    PhraseShape(f, v);
  }

  lemma PhraseQueryText(f: string, v: string)
    requires f == "first_name" && v == "Bob Norman"
    ensures f + ":" + ("\"" + v + "\"") == "first_name:\"Bob Norman\""
  {
  }

  /** `eq('first_name', 'Bob Norman')` prints `first_name:"Bob Norman"`. */
  lemma PhraseQuery(f: string, v: string)
    requires f == "first_name" && v == "Bob Norman"
    ensures BuildSearchQuery(T(EqField(f, v))) == "first_name:\"Bob Norman\""
  {
    PhraseQueryText(f, v);
    assert v[3] == ' ';
    PhraseShape(f, v);
  }

  // ---- default search ----

  /** `eq('Bob')` prints `Bob`. */
  lemma DefaultSearch(v: string)
    requires v == "Bob"
    ensures BuildSearchQuery(T(Eq(v))) == "Bob"
  {
    Verbatim(v);
  }

  lemma DefaultSearchAndShape(v1: string, v2: string)
    requires Plain(v1) && Plain(v2)
    ensures BuildSearchQuery(Q(And([Single(T(Eq(v1))), Single(T(Eq(v2)))]))) == v1 + " AND " + v2
  {
    Verbatim(v1);
    Verbatim(v2);
    SeparatorText();
    TwoElements(Single(T(Eq(v1))), Single(T(Eq(v2))), AND);
  }

  lemma DefaultSearchAndText(v1: string, v2: string)
    requires v1 == "Bob" && v2 == "Norman"
    ensures v1 + " AND " + v2 == "Bob AND Norman"
  {
  }

  /** `and(eq('Bob'), eq('Norman'))` prints `Bob AND Norman`. */
  lemma DefaultSearchAnd(v1: string, v2: string)
    requires v1 == "Bob" && v2 == "Norman"
    ensures BuildSearchQuery(Q(And([Single(T(Eq(v1))), Single(T(Eq(v2)))]))) == "Bob AND Norman"
  {
    DefaultSearchAndText(v1, v2);
    DefaultSearchAndShape(v1, v2);
  }

  lemma MixedSearchAndShape(f: string, v1: string, v2: string)
    requires PlainName(f) && Plain(v1) && Plain(v2)
    ensures BuildSearchQuery(Q(And([Single(T(EqField(f, v1))), Single(T(Eq(v2)))]))) == f + ":" + v1 + " AND " + v2
  {
    FieldSearchShape(f, v1);
    Verbatim(v2);
    SeparatorText();
    TwoElements(Single(T(EqField(f, v1))), Single(T(Eq(v2))), AND);
  }

  lemma MixedSearchAndText(f: string, v1: string, v2: string)
    requires f == "title" && v1 == "Bob" && v2 == "Norman"
    ensures f + ":" + v1 + " AND " + v2 == "title:Bob AND Norman"
  {
  }

  /** `and(eq('title', 'Bob'), eq('Norman'))` prints `title:Bob AND Norman`. */
  lemma MixedSearchAnd(f: string, v1: string, v2: string)
    requires f == "title" && v1 == "Bob" && v2 == "Norman"
    ensures BuildSearchQuery(Q(And([Single(T(EqField(f, v1))), Single(T(Eq(v2)))]))) == "title:Bob AND Norman"
  {
    MixedSearchAndText(f, v1, v2);
    MixedSearchAndShape(f, v1, v2);
  }

  // ---- range search ----

  /** A date compared with `gt` prints in double quotes after the plain name and `:>`. */
  lemma DateRangeShape(f: string, v: string)
    requires PlainName(f) && IsDate(v)
    ensures BuildSearchQuery(T(Gt(f, v))) == f + ":>" + ("\"" + v + "\"")
  {
    EscapeNamePlain(f);
  }

  lemma DateRangeText(f: string, v: string)
    requires f == "created_at" && v == "2020-10-21"
    ensures f + ":>" + ("\"" + v + "\"") == "created_at:>\"2020-10-21\""
  {
  }

  /** `gt('created_at', '2020-10-21')` prints `created_at:>"2020-10-21"`. */
  lemma DateRange(f: string, v: string)
    requires f == "created_at" && v == "2020-10-21"
    ensures BuildSearchQuery(T(Gt(f, v))) == "created_at:>\"2020-10-21\""
  {
    DateRangeText(f, v);
    assert v[..10] == v;
    DateRangeShape(f, v);
  }

  /** The timestamp of the tests matches the date pattern: day, `T`, clock, no fraction, `Z`. */
  lemma TimestampIsDate(v: string)
    requires v == "2020-10-21T23:39:20Z"
    ensures IsDate(v)
  {
    var d, t := v[..10], v[10..];
    assert d == "2020-10-21" && t == "T23:39:20Z";
    TestDayIsDay(d);
    TestTimeIsTimeSuffix(t);
  }

  /** The day of the tests' dates matches `YYYY-MM-DD`. */
  lemma TestDayIsDay(d: string)
    requires d == "2020-10-21"
    ensures IsDay(d)
  {
    assert d[0..4] == "2020" && d[5..7] == "10" && d[8..10] == "21";
  }

  /** The time of the tests' timestamp matches `Thh:mm:ss` and `Z` with no fraction. */
  lemma TestTimeIsTimeSuffix(t: string)
    requires t == "T23:39:20Z"
    ensures IsTimeSuffix(t)
  {
    var c := t[..9];
    assert c == "T23:39:20";
    assert c[1..3] == "23" && c[4..6] == "39" && c[7..9] == "20";
    assert IsClock(c);
    assert t[9..|t| - 1] == [];
  }

  lemma TimestampRangeText(f: string, v: string)
    requires f == "created_at" && v == "2020-10-21T23:39:20Z"
    ensures f + ":>" + ("\"" + v + "\"") == "created_at:>\"2020-10-21T23:39:20Z\""
  {
  }

  /** `gt('created_at', '2020-10-21T23:39:20Z')` prints `created_at:>"2020-10-21T23:39:20Z"`. */
  lemma TimestampRange(f: string, v: string)
    requires f == "created_at" && v == "2020-10-21T23:39:20Z"
    ensures BuildSearchQuery(T(Gt(f, v))) == "created_at:>\"2020-10-21T23:39:20Z\""
  {
    TimestampIsDate(v);
    TimestampRangeText(f, v);
    DateRangeShape(f, v);
  }

  lemma RangeAndShape(f: string, lo: string, hi: string)
    requires PlainName(f) && Plain(lo) && Plain(hi)
    ensures BuildSearchQuery(Q(And([Single(T(Gt(f, lo))), Single(T(Lte(f, hi)))])))
      == f + ":>" + lo + " AND " + (f + ":<=" + hi)
  {
    PlainPair(Gt(f, lo));
    PlainPair(Lte(f, hi));
    SeparatorText();
    TwoElements(Single(T(Gt(f, lo))), Single(T(Lte(f, hi))), AND);
  }

  lemma RangeAndText(f: string, lo: string, hi: string)
    requires f == "orders_count" && lo == "16" && hi == "30"
    ensures f + ":>" + lo + " AND " + (f + ":<=" + hi) == "orders_count:>16 AND orders_count:<=30"
  {
  }

  /** `and(gt('orders_count', '16'), lte('orders_count', '30'))` prints `orders_count:>16 AND orders_count:<=30`. */
  lemma RangeAnd(f: string, lo: string, hi: string)
    requires f == "orders_count" && lo == "16" && hi == "30"
    ensures BuildSearchQuery(Q(And([Single(T(Gt(f, lo))), Single(T(Lte(f, hi)))])))
      == "orders_count:>16 AND orders_count:<=30"
  {
    RangeAndText(f, lo, hi);
    RangeAndShape(f, lo, hi);
  }

  /** A nested `and` holding only a two-member range group prints as that group, parentheses kept. */
  lemma RangeGroupShape(f: string, lo: string, hi: string)
    requires PlainName(f) && Plain(lo) && Plain(hi)
    ensures BuildSearchQuery(Q(And([Group([T(Gt(f, lo)), T(Lte(f, hi))])])))
      == "(" + (f + ":>" + lo + " AND " + (f + ":<=" + hi)) + ")"
  {
    PlainPair(Gt(f, lo));
    PlainPair(Lte(f, hi));
    SeparatorText();
    TwoMemberGroup(T(Gt(f, lo)), T(Lte(f, hi)), AND);
  }

  /** A group of one phrase term prints as that term in parentheses. */
  lemma PhraseGroupShape(f: string, v: string, c: Connective)
    requires PlainName(f) && ' ' in v
    ensures RenderElem(Group([T(EqField(f, v))]), c) == "(" + (f + ":" + ("\"" + v + "\"")) + ")"
  {
    PhraseShape(f, v);
    GroupRendering([T(EqField(f, v))], c);
    assert Singles([T(EqField(f, v))]) == [Single(T(EqField(f, v)))];
  }

  lemma GroupedRangesShape(f1: string, v: string, f2: string, lo: string, hi: string)
    requires PlainName(f1) && ' ' in v && PlainName(f2) && Plain(lo) && Plain(hi)
    ensures BuildSearchQuery(Q(Or([
        Group([T(EqField(f1, v))]),
        Single(Q(And([Group([T(Gt(f2, lo)), T(Lte(f2, hi))])])))
      ]))) == "(" + (f1 + ":" + ("\"" + v + "\"")) + ")" + " OR " + ("(" + (f2 + ":>" + lo + " AND " + (f2 + ":<=" + hi)) + ")")
  {
    PhraseGroupShape(f1, v, OR);
    RangeGroupShape(f2, lo, hi);
    SeparatorText();
    TwoElements(Group([T(EqField(f1, v))]), Single(Q(And([Group([T(Gt(f2, lo)), T(Lte(f2, hi))])]))), OR);
  }

  /** The printed pieces, regrouped from the nesting of the printer to plain left-to-right order. */
  lemma GroupedRangesFlat(f1: string, v: string, f2: string, lo: string, hi: string)
    ensures "(" + (f1 + ":" + ("\"" + v + "\"")) + ")" + " OR " + ("(" + (f2 + ":>" + lo + " AND " + (f2 + ":<=" + hi)) + ")")
      == "(" + f1 + ":" + "\"" + v + "\"" + ")" + " OR " + "(" + f2 + ":>" + lo + " AND " + f2 + ":<=" + hi + ")"
  {
  }

  /** The first half of the expected text, up to the opening parenthesis of the second group. */
  lemma GroupedRangesOpening(f1: string, v: string)
    requires f1 == "title" && v == "Caramel Apple"
    ensures "(" + f1 + ":" + "\"" + v + "\"" + ")" + " OR " + "(" == "(title:\"Caramel Apple\") OR ("
  {
    var s := "(" + f1;
    assert s == "(title";
    s := s + ":";
    assert s == "(title:";
    s := s + "\"";
    assert s == "(title:\"";
    s := s + v;
    assert s == "(title:\"Caramel Apple";
    s := s + "\"";
    assert s == "(title:\"Caramel Apple\"";
    s := s + ")";
    assert s == "(title:\"Caramel Apple\")";
    s := s + " OR ";
    assert s == "(title:\"Caramel Apple\") OR ";
  }

  /**
   The expected text, spelled out one printed piece at a time; the prover only
   matches a long literal when each step appends a short piece to a known one.
   */
  lemma GroupedRangesText(f1: string, v: string, f2: string, lo: string, hi: string)
    requires f1 == "title" && v == "Caramel Apple" && f2 == "inventory_total" && lo == "500" && hi == "1000"
    ensures "(" + (f1 + ":" + ("\"" + v + "\"")) + ")" + " OR " + ("(" + (f2 + ":>" + lo + " AND " + (f2 + ":<=" + hi)) + ")")
      == "(title:\"Caramel Apple\") OR (inventory_total:>500 AND inventory_total:<=1000)"
  {
    GroupedRangesFlat(f1, v, f2, lo, hi);
    GroupedRangesOpening(f1, v);
    var s := "(" + f1 + ":" + "\"" + v + "\"" + ")" + " OR " + "(" + f2;
    assert s == "(title:\"Caramel Apple\") OR (inventory_total";
    s := s + ":>";
    assert s == "(title:\"Caramel Apple\") OR (inventory_total:>";
    s := s + lo;
    assert s == "(title:\"Caramel Apple\") OR (inventory_total:>500";
    s := s + " AND ";
    assert s == "(title:\"Caramel Apple\") OR (inventory_total:>500 AND ";
    s := s + f2;
    assert s == "(title:\"Caramel Apple\") OR (inventory_total:>500 AND inventory_total";
    s := s + ":<=";
    assert s == "(title:\"Caramel Apple\") OR (inventory_total:>500 AND inventory_total:<=";
    s := s + hi;
    assert s == "(title:\"Caramel Apple\") OR (inventory_total:>500 AND inventory_total:<=1000";
  }

  /**
   `or([eq('title', 'Caramel Apple')], and([gt('inventory_total', '500'), lte('inventory_total', '1000')]))`
   prints `(title:"Caramel Apple") OR (inventory_total:>500 AND inventory_total:<=1000)`: the
   group inside the nested query is joined by that query's own connective.
   */
  lemma GroupedRanges(f1: string, v: string, f2: string, lo: string, hi: string)
    requires f1 == "title" && v == "Caramel Apple" && f2 == "inventory_total" && lo == "500" && hi == "1000"
    ensures BuildSearchQuery(Q(Or([
        Group([T(EqField(f1, v))]),
        Single(Q(And([Group([T(Gt(f2, lo)), T(Lte(f2, hi))])])))
      ]))) == "(title:\"Caramel Apple\") OR (inventory_total:>500 AND inventory_total:<=1000)"
  {
    GroupedRangesText(f1, v, f2, lo, hi);
    assert v[7] == ' ';
    GroupedRangesShape(f1, v, f2, lo, hi);
  }

  // ---- negation ----

  /** `not(eq('Bob'))` prints `NOT Bob`. */
  lemma NegatedDefault(v: string)
    requires v == "Bob"
    ensures BuildSearchQuery(T(Not(Eq(v)))) == "NOT Bob"
  {
    Verbatim(v);
  }

  lemma NegatedFieldShape(f: string, v: string)
    requires PlainName(f) && Plain(v)
    ensures BuildSearchQuery(T(Not(EqField(f, v)))) == "NOT " + (f + ":" + v)
  {
    FieldSearchShape(f, v);
    NotRendering(EqField(f, v));
  }

  lemma NegatedFieldText(f: string, v: string)
    requires f == "first_name" && v == "Bob"
    ensures "NOT " + (f + ":" + v) == "NOT first_name:Bob"
  {
  }

  /** `not(eq('first_name', 'Bob'))` prints `NOT first_name:Bob`. */
  lemma NegatedField(f: string, v: string)
    requires f == "first_name" && v == "Bob"
    ensures BuildSearchQuery(T(Not(EqField(f, v)))) == "NOT first_name:Bob"
  {
    NegatedFieldText(f, v);
    NegatedFieldShape(f, v);
  }

  // ---- nesting and grouping ----

  lemma NestedWithoutParenthesesShape(a: string, b: string, c: string)
    requires Plain(a) && Plain(b) && Plain(c)
    ensures BuildSearchQuery(Q(And([Single(Q(Or([Single(T(Eq(a))), Single(T(Eq(b)))]))), Single(T(Eq(c)))])))
      == a + " OR " + b + " AND " + c
  {
    Verbatim(a);
    Verbatim(b);
    Verbatim(c);
    SeparatorText();
    TwoElements(Single(T(Eq(a))), Single(T(Eq(b))), OR);
    TwoElements(Single(Q(Or([Single(T(Eq(a))), Single(T(Eq(b)))]))), Single(T(Eq(c))), AND);
  }

  lemma NestedWithoutParenthesesText(a: string, b: string, c: string)
    requires a == "bob" && b == "norman" && c == "Shopify"
    ensures a + " OR " + b + " AND " + c == "bob OR norman AND Shopify"
  {
  }

  /**
   `and(or(eq('bob'), eq('norman')), eq('Shopify'))` prints `bob OR norman AND Shopify`:
   a nested query gets no parentheses.
   */
  lemma NestedWithoutParentheses(a: string, b: string, c: string)
    requires a == "bob" && b == "norman" && c == "Shopify"
    ensures BuildSearchQuery(Q(And([Single(Q(Or([Single(T(Eq(a))), Single(T(Eq(b)))]))), Single(T(Eq(c)))])))
      == "bob OR norman AND Shopify"
  {
    NestedWithoutParenthesesText(a, b, c);
    NestedWithoutParenthesesShape(a, b, c);
  }

  lemma LoneGroupShape(a: string, b: string)
    requires Plain(a) && Plain(b)
    ensures BuildSearchQuery(Q(And([Group([T(Eq(a)), T(Eq(b))])]))) == "(" + (a + " AND " + b) + ")"
  {
    Verbatim(a);
    Verbatim(b);
    SeparatorText();
    TwoMemberGroup(T(Eq(a)), T(Eq(b)), AND);
  }

  lemma LoneGroupText(a: string, b: string)
    requires a == "Bob" && b == "Norman"
    ensures "(" + (a + " AND " + b) + ")" == "(Bob AND Norman)"
  {
  }

  /** `and([eq('Bob'), eq('Norman')])` prints `(Bob AND Norman)`: a lone group keeps its parentheses. */
  lemma LoneGroup(a: string, b: string)
    requires a == "Bob" && b == "Norman"
    ensures BuildSearchQuery(Q(And([Group([T(Eq(a)), T(Eq(b))])]))) == "(Bob AND Norman)"
  {
    LoneGroupText(a, b);
    LoneGroupShape(a, b);
  }

  lemma GroupInNestedQueryShape(a: string, b: string, c: string)
    requires Plain(a) && Plain(b) && Plain(c)
    ensures BuildSearchQuery(Q(Or([Single(Q(And([Group([T(Eq(a)), T(Eq(b))])]))), Single(T(Eq(c)))])))
      == "(" + (a + " AND " + b) + ")" + " OR " + c
  {
    LoneGroupShape(a, b);
    Verbatim(c);
    SeparatorText();
    TwoElements(Single(Q(And([Group([T(Eq(a)), T(Eq(b))])]))), Single(T(Eq(c))), OR);
  }

  lemma GroupInNestedQueryText(a: string, b: string, c: string)
    requires a == "Bob" && b == "Norman" && c == "Alice"
    ensures "(" + (a + " AND " + b) + ")" + " OR " + c == "(Bob AND Norman) OR Alice"
  {
  }

  /** `or(and([eq('Bob'), eq('Norman')]), eq('Alice'))` prints `(Bob AND Norman) OR Alice`. */
  lemma GroupInNestedQuery(a: string, b: string, c: string)
    requires a == "Bob" && b == "Norman" && c == "Alice"
    ensures BuildSearchQuery(Q(Or([Single(Q(And([Group([T(Eq(a)), T(Eq(b))])]))), Single(T(Eq(c)))])))
      == "(Bob AND Norman) OR Alice"
  {
    GroupInNestedQueryText(a, b, c);
    GroupInNestedQueryShape(a, b, c);
  }

  lemma GroupWithPhraseShape(f: string, v: string, p: string, w: string)
    requires PlainName(f) && Plain(v) && ' ' in p && Plain(w)
    ensures BuildSearchQuery(Q(And([Single(T(EqField(f, v))), Single(Q(Or([Group([T(Eq(p)), T(Eq(w))])])))])))
      == f + ":" + v + " AND " + ("(" + ("\"" + p + "\"" + " OR " + w) + ")")
  {
    FieldSearchShape(f, v);
    Verbatim(w);
    SeparatorText();
    TwoMemberGroup(T(Eq(p)), T(Eq(w)), OR);
    TwoElements(Single(T(EqField(f, v))), Single(Q(Or([Group([T(Eq(p)), T(Eq(w))])]))), AND);
  }

  /** The printed pieces, regrouped from the nesting of the printer to plain left-to-right order. */
  lemma GroupWithPhraseFlat(f: string, v: string, p: string, w: string)
    ensures f + ":" + v + " AND " + ("(" + ("\"" + p + "\"" + " OR " + w) + ")")
      == f + ":" + v + " AND " + "(" + "\"" + p + "\"" + " OR " + w + ")"
  {
  }

  /** The expected text, spelled out one printed piece at a time. */
  lemma GroupWithPhraseText(f: string, v: string, p: string, w: string)
    requires f == "state" && v == "disabled" && p == "sale shopper" && w == "VIP"
    ensures f + ":" + v + " AND " + ("(" + ("\"" + p + "\"" + " OR " + w) + ")") == "state:disabled AND (\"sale shopper\" OR VIP)"
  {
    GroupWithPhraseFlat(f, v, p, w);
    var s := f + ":" + v;
    assert s == "state:disabled";
    s := s + " AND " + "(";
    assert s == "state:disabled AND (";
    s := s + "\"";
    assert s == "state:disabled AND (\"";
    s := s + p;
    assert s == "state:disabled AND (\"sale shopper";
    s := s + "\"";
    assert s == "state:disabled AND (\"sale shopper\"";
    s := s + " OR ";
    assert s == "state:disabled AND (\"sale shopper\" OR ";
    s := s + w;
    assert s == "state:disabled AND (\"sale shopper\" OR VIP";
  }

  /**
   `and(eq('state', 'disabled'), or([eq('sale shopper'), eq('VIP')]))` prints
   `state:disabled AND ("sale shopper" OR VIP)`.
   */
  lemma GroupWithPhrase(f: string, v: string, p: string, w: string)
    requires f == "state" && v == "disabled" && p == "sale shopper" && w == "VIP"
    ensures BuildSearchQuery(Q(And([Single(T(EqField(f, v))), Single(Q(Or([Group([T(Eq(p)), T(Eq(w))])])))])))
      == "state:disabled AND (\"sale shopper\" OR VIP)"
  {
    GroupWithPhraseText(f, v, p, w);
    assert p[4] == ' ';
    GroupWithPhraseShape(f, v, p, w);
  }

  // ---- prefix, exists, special characters ----

  /** `prefix('norm')` prints `norm*`. */
  lemma PrefixDefault(v: string)
    requires v == "norm"
    ensures BuildSearchQuery(T(Prefix(v))) == "norm*"
  {
    Verbatim(v);
    PrefixRendering(v);
  }

  lemma PrefixNamedShape(f: string, v: string)
    requires PlainName(f) && Plain(v)
    ensures BuildSearchQuery(T(PrefixField(f, v))) == f + ":" + (v + "*")
  {
    EscapeNamePlain(f);
    Verbatim(v);
    PrefixFieldRendering(f, v);
  }

  lemma PrefixNamedText(f: string, v: string)
    requires f == "title" && v == "head"
    ensures f + ":" + (v + "*") == "title:head*"
  {
  }

  /** `prefix('title', 'head')` prints `title:head*`. */
  lemma PrefixNamed(f: string, v: string)
    requires f == "title" && v == "head"
    ensures BuildSearchQuery(T(PrefixField(f, v))) == "title:head*"
  {
    PrefixNamedText(f, v);
    PrefixNamedShape(f, v);
  }

  lemma ExistsFieldShape(f: string)
    requires PlainName(f)
    ensures BuildSearchQuery(T(Exists(f))) == f + ":*"
  {
    EscapeNamePlain(f);
    ExistsRendering(f);
  }

  lemma ExistsFieldText(f: string)
    requires f == "published_at"
    ensures f + ":*" == "published_at:*"
  {
  }

  /** `exists('published_at')` prints `published_at:*`. */
  lemma ExistsField(f: string)
    requires f == "published_at"
    ensures BuildSearchQuery(T(Exists(f))) == "published_at:*"
  {
    ExistsFieldText(f);
    ExistsFieldShape(f);
  }

  /** A `:` in front of a plain string gets one backslash. */
  lemma ColonTail(b: string)
    requires EscapeName(b) == b
    ensures EscapeName(":" + b) == "\\:" + b
  {
    assert (":" + b)[0] == ':' && (":" + b)[1..] == b;
  }

  /** A value made of two plain parts around a `:` is not quoted, and the `:` gets a backslash. */
  lemma SpecialCharacterShape(f: string, a: string, b: string)
    requires PlainName(f) && NoSpecial(a) && NoSpecial(b) && !NeedsQuotes(a + (":" + b))
    ensures BuildSearchQuery(T(EqField(f, a + (":" + b)))) == f + ":" + (a + ("\\:" + b))
  {
    EscapeNamePlain(f);
    EscapeNamePlain(a);
    EscapeNamePlain(b);
    ColonTail(b);
    EscapeNameAppend(a, ":" + b);
  }

  lemma SpecialCharacterText(f: string, v: string, a: string, b: string)
    requires f == "first_name" && v == "Bob:Norman" && a == "Bob" && b == "Norman"
    ensures v == a + (":" + b)
    ensures f + ":" + (a + ("\\:" + b)) == "first_name:Bob\\:Norman"
  {
  }

  /** `eq('first_name', 'Bob:Norman')` prints `first_name:Bob\:Norman`. */
  lemma SpecialCharacter(f: string, v: string)
    requires f == "first_name" && v == "Bob:Norman"
    ensures BuildSearchQuery(T(EqField(f, v))) == "first_name:Bob\\:Norman"
  {
    var a, b := "Bob", "Norman";
    SpecialCharacterText(f, v, a, b);
    assert !IsDigit(v[..10][0..4][0]);
    SpecialCharacterShape(f, a, b);
  }
}

=== FILE: modifiers.dfy ===
/**
 The negation modifier. Negating copies the term with its modifier set to
 `NOT`; an existing modifier is overwritten, never stacked or toggled.
 */
module Modifiers {
  import opened Types

  function Not(t: Term): (r: Term)
    ensures r.modifier == Some(NOT)
    ensures r.field == t.field && r.value == t.value && r.comparator == t.comparator
  {
    t.(modifier := Some(NOT))
  }

  /** Negating twice is negating once. */
  lemma NotIdempotent(t: Term)
    ensures Not(Not(t)) == Not(t)
  {
  }

  /** `NOT` is the only modifier, so every modified term carries `NOT`. */
  lemma OnlyModifier(m: Modifier)
    ensures m == NOT && m.Symbol() == "NOT"
  {
  }
}

=== FILE: rendering.dfy ===
/**
 How the values built by the constructors, the negation modifier and the
 connectives print.
 */
module Rendering {
  import opened Types
  import opened Dates
  import opened Escape
  import opened Comparators
  import opened Modifiers
  import opened Connectives
  import opened Builder

  /** No constructor sets a modifier. */
  lemma ConstructorsUnmodified(f: string, v: string)
    ensures Eq(v).modifier == None && EqField(f, v).modifier == None
    ensures Gt(f, v).modifier == None && Lt(f, v).modifier == None
    ensures Gte(f, v).modifier == None && Lte(f, v).modifier == None
    ensures Prefix(v).modifier == None && PrefixField(f, v).modifier == None
    ensures Exists(f).modifier == None
  {
  }

  /**
   Every unmodified term is built by exactly the constructor its comparator
   names, from its own field and value; the default field with `EQ` is `eq(value)`.
   */
  lemma ConstructorsCover(t: Term)
    requires t.modifier == None
    ensures t.comparator == EQ ==> t == EqField(t.field, t.value)
    ensures t.comparator == EQ && t.field == "" ==> t == Eq(t.value)
    ensures t.comparator == GT ==> t == Gt(t.field, t.value)
    ensures t.comparator == LT ==> t == Lt(t.field, t.value)
    ensures t.comparator == GTE ==> t == Gte(t.field, t.value)
    ensures t.comparator == LTE ==> t == Lte(t.field, t.value)
  {
  }

  /** Default-field equality prints the value alone. */
  lemma EqRendering(v: string)
    ensures BuildSearchQuery(T(Eq(v))) == EscapeValue(v)
  {
  }

  /** Named-field equality prints escaped name, `:`, printed value; an empty name leaves the value alone. */
  lemma EqFieldRendering(f: string, v: string)
    ensures f != "" ==> BuildSearchQuery(T(EqField(f, v))) == EscapeName(f) + ":" + EscapeValue(v)
    ensures f == "" ==> BuildSearchQuery(T(EqField(f, v))) == EscapeValue(v)
  {
  }

  /** The four range constructors print their own symbol between name and value. */
  lemma RangeRendering(f: string, v: string)
    requires f != ""
    ensures BuildSearchQuery(T(Gt(f, v))) == EscapeName(f) + ":>" + EscapeValue(v)
    ensures BuildSearchQuery(T(Lt(f, v))) == EscapeName(f) + ":<" + EscapeValue(v)
    ensures BuildSearchQuery(T(Gte(f, v))) == EscapeName(f) + ":>=" + EscapeValue(v)
    ensures BuildSearchQuery(T(Lte(f, v))) == EscapeName(f) + ":<=" + EscapeValue(v)
  {
    NamedTermRendering(Gt(f, v));
    NamedTermRendering(Lt(f, v));
    NamedTermRendering(Gte(f, v));
    NamedTermRendering(Lte(f, v));
  }

  /** Any unmodified named-field term prints as escaped name, symbol, printed value. */
  lemma NamedTermRendering(t: Term)
    requires t.field != "" && t.modifier == None
    ensures BuildSearchQuery(T(t)) == EscapeName(t.field) + t.comparator.Symbol() + EscapeValue(t.value)
  {
  }

  /**
   The `*` is added before printing: a value with a space is quoted with the
   star inside the quotes, any other value is escaped and ends in a bare `*`.
   A starred value is never a date.
   */
  lemma StarredValue(v: string)
    ensures EscapeValue(v + "*") == (if ' ' in v then "\"" + v + "*\"" else EscapeName(v) + "*")
  {
    StarredQuoting(v);
    if ' ' in v {
      StarredQuoted(v);
    } else {
      StarredEscaping(v);
    }
  }

  /** Quoting a starred value puts the star just before the closing quote. */
  lemma StarredQuoted(v: string)
    ensures "\"" + (v + "*") + "\"" == "\"" + v + "*\""
  {
  }

  /** Only a space in the original value makes a starred value quoted. */
  lemma StarredQuoting(v: string)
    ensures NeedsQuotes(v + "*") <==> ' ' in v
  {
    StarredNeverDate(v);
    assert ' ' in v + "*" <==> ' ' in v;
  }

  /** The star is not a special character, so it is printed as it is. */
  lemma StarredEscaping(v: string)
    ensures EscapeName(v + "*") == EscapeName(v) + "*"
  {
    EscapeNameAppend(v, "*");
    assert EscapeName("*") == "*";
  }

  /** Default-field prefix prints the starred value alone. */
  lemma PrefixRendering(v: string)
    ensures BuildSearchQuery(T(Prefix(v))) == (if ' ' in v then "\"" + v + "*\"" else EscapeName(v) + "*")
  {
    StarredValue(v);
  }

  /** Named-field prefix prints escaped name, `:`, then the starred value. */
  lemma PrefixFieldRendering(f: string, v: string)
    requires f != ""
    ensures BuildSearchQuery(T(PrefixField(f, v))) ==
      EscapeName(f) + ":" + (if ' ' in v then "\"" + v + "*\"" else EscapeName(v) + "*")
  {
    StarredValue(v);
  }

  /** An existence test prints as the escaped name followed by `:*`. */
  lemma ExistsRendering(f: string)
    ensures f != "" ==> BuildSearchQuery(T(Exists(f))) == EscapeName(f) + ":*"
    ensures f == "" ==> BuildSearchQuery(T(Exists(f))) == "*"
  {
    assert EscapeValue("*") == "*" by {
      assert !IsDate("*");
      assert EscapeName("*") == "*";
    }
  }

  /**
   Nothing escapes a `>` in a value, so equality on a value starting with `>`
   prints exactly like `gt` on the rest of the value, when that rest is
   neither a date nor holds a space.
   */
  lemma ComparatorInValue(f: string, v: string)
    requires f != "" && !NeedsQuotes(v)
    ensures BuildSearchQuery(T(EqField(f, ">" + v))) == BuildSearchQuery(T(Gt(f, v)))
  {
    var name, rest := EscapeName(f), EscapeName(v);
    calc {
      BuildSearchQuery(T(EqField(f, ">" + v)));
      { NamedTermRendering(EqField(f, ">" + v)); }
      name + ":" + EscapeValue(">" + v);
      { GreaterSignPrinted(v); }
      name + ":" + (">" + rest);
      { assert name + ":" + (">" + rest) == name + ":>" + rest; }
      name + ":>" + rest;
      { NamedTermRendering(Gt(f, v)); assert GT.Symbol() == ":>"; }
      BuildSearchQuery(T(Gt(f, v)));
    }
  }

  /** A value starting with `>` is not a date, so it is escaped, and the `>` itself is kept as is. */
  lemma GreaterSignPrinted(v: string)
    requires ' ' !in v
    ensures EscapeValue(">" + v) == ">" + EscapeName(v)
  {
    var s := ">" + v;
    assert !IsDate(s) by {
      if |s| >= 10 {
        assert s[..10][0..4][0] == '>';
      }
    }
    assert ' ' !in s;
    EscapeNameAppend(">", v);
    assert EscapeName(">") == ">";
  }

  /** Negating an unmodified term prints `NOT ` in front of its own printed form. */
  lemma NotRendering(t: Term)
    requires t.modifier == None
    ensures BuildSearchQuery(T(Not(t))) == "NOT " + BuildSearchQuery(T(t))
  {
  }

  /**
   A connective prints its operands in the order given: one operand prints
   alone, and a longer list prints its first operand, the keyword between
   spaces, then the rest.
   */
  lemma AndRendering(e: Elem, rest: seq<Elem>)
    ensures BuildSearchQuery(Q(And([e]))) == RenderElem(e, AND)
    ensures |rest| >= 1 ==> BuildSearchQuery(Q(And([e] + rest))) == RenderElem(e, AND) + " AND " + BuildSearchQuery(Q(And(rest)))
  {
    if |rest| >= 1 {
      BuildTermsAppend([e], rest, AND);
    }
  }

  lemma OrRendering(e: Elem, rest: seq<Elem>)
    ensures BuildSearchQuery(Q(Or([e]))) == RenderElem(e, OR)
    ensures |rest| >= 1 ==> BuildSearchQuery(Q(Or([e] + rest))) == RenderElem(e, OR) + " OR " + BuildSearchQuery(Q(Or(rest)))
  {
    if |rest| >= 1 {
      BuildTermsAppend([e], rest, OR);
    }
  }
}

=== FILE: text.dfy ===
/**
 String helpers shared by the printer: joining a list of strings with a
 separator, the way an array's `join` does.
 */
module Text {

  /** `parts` joined by `sep`: no separator before the first or after the last part. */
  function Join(parts: seq<string>, sep: string): string
  {
    if |parts| == 0 then ""
    else if |parts| == 1 then parts[0]
    else parts[0] + sep + Join(parts[1..], sep)
  }

  /** The final element of a non-empty list. */
  function Last(parts: seq<string>): string
    requires |parts| >= 1
  {
    parts[|parts| - 1]
  }

  /** Joining the concatenation of two non-empty lists puts exactly one separator between their joins. */
  lemma {:induction false} JoinAppend(a: seq<string>, b: seq<string>, sep: string)
    requires |a| >= 1 && |b| >= 1
    ensures Join(a + b, sep) == Join(a, sep) + sep + Join(b, sep)
    decreases |a|
  {
    if |a| == 1 {
      assert (a + b)[1..] == b;
    } else {
      assert (a + b)[1..] == a[1..] + b;
      JoinAppend(a[1..], b, sep);
    }
  }

  /** A join starts with the first part and ends with the last; joining nothing gives nothing. */
  lemma {:induction false} JoinEnds(parts: seq<string>, sep: string)
    ensures |parts| == 0 ==> Join(parts, sep) == ""
    ensures |parts| >= 1 ==> |parts[0]| <= |Join(parts, sep)| && Join(parts, sep)[..|parts[0]|] == parts[0]
    ensures |parts| >= 1 ==> var r := Join(parts, sep);
      |Last(parts)| <= |r| && r[|r| - |Last(parts)|..] == Last(parts)
    decreases |parts|
  {
    if |parts| >= 2 {
      JoinEnds(parts[1..], sep);
      assert Last(parts[1..]) == Last(parts);
    }
  }
}

=== FILE: types.dfy ===
/**
 The data model of the search-query builder: terms, queries and the three
 closed symbol tables (comparators, connectives, modifiers).

 A query element is either a single operand (a term or a nested query) or a
 group: a flat list of operands that is always printed in parentheses.
 Group members are never groups themselves.
 */
module Types {

  /** A value that may be missing: a term's modifier (`None` when not negated), or the outcome of reading text back. */
  datatype Option<+T> = None | Some(value: T)

  /** The comparison operators; `Symbol` is the text printed between field and value. */
  datatype Comparator = EQ | GT | LT | GTE | LTE {
    function Symbol(): string {
      match this
      case EQ => ":"
      case GT => ":>"
      case LT => ":<"
      case GTE => ":>="
      case LTE => ":<="
    }
  }

  /** The boolean connectives; `Symbol` is the keyword printed between operands. */
  datatype Connective = AND | OR {
    function Symbol(): string {
      match this
      case AND => "AND"
      case OR => "OR"
    }
  }

  /** The term modifiers; negation is the only one. */
  datatype Modifier = NOT {
    function Symbol(): string {
      match this
      case NOT => "NOT"
    }
  }

  /** One atomic filter condition. An empty `field` means the default field. */
  datatype Term = Term(field: string, value: string, comparator: Comparator, modifier: Option<Modifier>)

  /** An operand: a term or a nested query. */
  datatype Node = T(term: Term) | Q(query: Query)

  /** A query element: one operand, or a parenthesized group of operands. */
  datatype Elem = Single(node: Node) | Group(members: seq<Node>)

  /** Elements joined by one connective. The list is non-empty only when built by `And`/`Or`. */
  datatype Query = Query(terms: seq<Elem>, connective: Connective)

  /** Reads a comparator back from its symbol. */
  function ComparatorOf(s: string): (r: Option<Comparator>)
    ensures r.Some? ==> r.value.Symbol() == s
  {
    if s == ":" then Some(EQ)
    else if s == ":>" then Some(GT)
    else if s == ":<" then Some(LT)
    else if s == ":>=" then Some(GTE)
    else if s == ":<=" then Some(LTE)
    else None
  }

  /** Reads a connective back from its keyword. */
  function ConnectiveOf(s: string): (r: Option<Connective>)
    ensures r.Some? ==> r.value.Symbol() == s
  {
    if s == "AND" then Some(AND)
    else if s == "OR" then Some(OR)
    else None
  }

  /** Every comparator symbol reads back as that comparator, so no two comparators share a symbol. */
  lemma ComparatorSymbolRoundTrip(c: Comparator)
    ensures ComparatorOf(c.Symbol()) == Some(c)
    ensures forall d: Comparator :: d.Symbol() == c.Symbol() ==> d == c
    ensures |c.Symbol()| >= 1 && c.Symbol()[0] == ':'
  {
    forall d: Comparator | d.Symbol() == c.Symbol()
      ensures d == c
    {
      assert ComparatorOf(d.Symbol()) == Some(d);
    }
  }

  /** Every connective keyword reads back as that connective, and the two keywords differ. */
  lemma ConnectiveSymbolRoundTrip(c: Connective)
    ensures ConnectiveOf(c.Symbol()) == Some(c)
    ensures c.Symbol() == (if c == AND then "AND" else "OR")
    ensures forall d: Connective :: d.Symbol() == c.Symbol() ==> d == c
  {
  }
}
